=== FILE: README.md ===
# OpenAI-to-Ollama gateway: a Dafny model of its translation layer

The service in `app/main.py` exposes an OpenAI-compatible HTTP API and forwards
each call to an Ollama server. This project models the part of it that makes
decisions:

- the chat request translation: a `ChatCompletionRequest` becomes the Ollama chat payload
  (model, messages, `stream: False`, an `options` dict);
- the chat response translation: Ollama's reply becomes a `chat.completion` object
  (a `chatcmpl-` id, `created`, the echoed model, one choice, recomputed usage);
- the model list: each Ollama tag entry becomes a `ModelInfo`;
- error routing: connection failures, non-200 backend replies and malformed replies
  each end in a public status;
- the health probe.

The backend call is an input. A `BackendOutcome` is either
`Reply(code, text, body)` or `ConnFail(msg)`:

- `code`, `text` and `body` are the status, text and decoded JSON of an httpx response;
- `ConnFail(msg)` is an `httpx.RequestError` with its message.

The chat handler receives the backend as a function `send` from payload to outcome, so the
payload it answers is the one the translation built. `hash(str(reply))` is a parameter
`digest` from the decoded reply to a signed 64-bit value.

Decoded JSON is a `Json` datatype with null, bool, int, str, list and dict. The Python
operations the handlers apply to it are modelled as Python evaluates them:

- `.get` with a default;
- `[key]`;
- `int()`, including Python's base-10 string grammar: surrounding whitespace (ASCII
  tab, line feed, vertical tab, form feed, carriage return and space, plus the
  non-ASCII Unicode spaces; not the separators U+001C..U+001F), a sign and single
  underscores;
- `+` on numbers, strings and lists.

Every failure is a `Fault` value, one constructor per exception kind. Each handler is two
functions. The first is the body of the `try` block, which yields a value or the fault it
raises. The second is the `except` clauses, which turn that fault into an HTTP error.
An error's detail is the handler's prefix plus the fault. Its text is given exactly where
the code or the backend fixes it:

- the httpx message;
- the JSON decoder's reason;
- Starlette's `"<status>: <detail>"` for an `HTTPException`;
- the quoted key of a `KeyError`.

Modules: `Wrappers` (Option, Result), `Decimal` (`str(int)` and `int(str)`), `Faults`,
`Json`, `Schema` (the records), `Translate` (the three translations), `Handlers`
(the three endpoints) and `Scenarios` (worked exchanges).

The model follows the code, including where it departs from what an OpenAI-compatible gateway would be expected to do:

- An omitted `temperature` takes the declared default 0.7 and is forwarded. Only an
  explicit `null` keeps the key out of `options`.
- A non-200 chat reply raises `HTTPException(code, text)` inside the `try` block. The
  `except Exception` clause re-catches it, so the caller gets 500, not the backend's code.
- On `/v1/models`, the 503 raised for a non-200 reply is re-caught and becomes 500, and a
  connection failure also becomes 500. Neither shows as 503.
- A `created_at` that `int()` cannot convert makes the reply a 500; it does not default
  to 0. A timestamp string such as `"2023-08-04T19:22:45Z"` is such a value.
- An empty `messages` list is accepted and forwarded.
- A `stream: true` request is silently answered without streaming.
- `/health` reports a non-200 backend as `disconnected` without its status.

## Model

| member | source | states |
|---|---|---|
| `Schema.Validate` | app/main.py:34-39 | model and messages are kept; a given temperature, max_tokens or stream keeps its value; an omitted temperature becomes 0.7, an omitted max_tokens None, an omitted stream False; an explicit null makes each of them None |
| `Translate.ToOllamaMessages` | app/main.py:97-102 | one backend message per request message, same length, each role and content copied at the same position |
| `Translate.MessagesRoundTrip` | app/main.py:97-102 | reading the backend list back yields the request's messages exactly: nothing lost, reordered or altered |
| `Translate.OllamaMessagesRoundTrip` | app/main.py:97-102 | the message translation is onto as well: every backend list is the image of the list read back from it |
| `Translate.OptionsFor` | app/main.py:108-115 | `temperature` is a key iff a temperature is present, with its value; `num_predict` iff max_tokens is present, with its value; no other keys |
| `Translate.ToOllamaRequest` | app/main.py:104-115 | the payload copies the model, has the request's messages in order, has `stream` False, and has exactly the option keys the request's optional fields call for |
| `Translate.PayloadRoundTrip` | app/main.py:104-115 | the request can be recovered from its payload and its stream flag: the payload drops nothing else |
| `Translate.PayloadInjective` | app/main.py:104-115 | two requests with equal payloads differ at most in the stream flag |
| `Translate.StreamIgnored` | app/main.py:107 | changing the caller's stream flag does not change the payload, whose stream is always False |
| `Translate.OmittedTemperatureIsForwarded` | app/main.py:111-112 | a body without temperature still sends temperature 0.7, the declared default of line 37 |
| `Translate.OptionKeysFromBody` | app/main.py:111-115 | temperature is absent from the options iff the body sent null; num_predict is absent iff max_tokens was omitted or null |
| `Translate.ChatId` | app/main.py:128 | the id starts with `chatcmpl-`, has at most 29 characters, and the `[:29]` slice keeps every digit of a 64-bit hash |
| `Translate.ChatIdRecoversHash` | app/main.py:128 | `int()` of the id after its prefix gives back the hash |
| `Translate.ChatIdInjective` | app/main.py:128 | different hashes give different ids |
| `Translate.FromOllamaReply` | app/main.py:127-145 | translation succeeds iff the reply is a dict with a convertible created_at (default 0), a dict message holding content, and addable counters. On success: the model is the requested one; there is one choice with index 0, role assistant, the backend's content and finish_reason stop; the counters default to 0; total is their sum; created is 0 when created_at is absent. Once created_at has converted, a missing message or content fails with KeyError, never with empty content; a created_at that does not convert fails first, with the error of `int()` |
| `Translate.UsageIsSum` | app/main.py:140-144 | with integer counters, total_tokens equals prompt_tokens plus completion_tokens, and each absent counter reads 0 |
| `Translate.ModelIsEchoed` | app/main.py:131 | every successful translation names the requested model, whatever reply it came from |
| `Translate.ToModelInfo` | app/main.py:82-85 | an entry converts iff it is a dict with a string name; the result has id name, object model, created 0, owned_by ollama |
| `Translate.ToModelInfos` | app/main.py:80-85 | all entries convert iff each is a named dict; the list has one ModelInfo per entry in order; a failure is the fault of the first entry that does not convert |
| `Translate.ModelsOf` | app/main.py:79-86 | a dict without `models` gives an empty list; a `models` list goes through the entry loop; any other `models` value succeeds only when it is an empty dict or empty string, and then gives an empty list; a non-dict reply raises AttributeError for `.get` |
| `Json.Get` | app/main.py:130 | `.get` fails with AttributeError iff the value is not a dict; otherwise it returns the stored value or the default |
| `Json.Subscript` | app/main.py:136 | `[key]` succeeds iff the value is a dict holding the key; a missing key is a KeyError, a non-dict a TypeError |
| `Json.ToInt` | app/main.py:130 | `int()` gives the value of an int or bool, parses a string as a base-10 literal or raises ValueError, and raises TypeError for null, list and dict |
| `Json.Add` | app/main.py:143 | `+` adds numbers (bools count as 0 and 1), concatenates strings and lists, and raises TypeError for every other pair |
| `Decimal.ParseInt` | app/main.py:130 | `int()` of a string succeeds iff, after stripping the whitespace `int()` skips (ASCII 9-13 and 32 and the non-ASCII Unicode spaces, not U+001C..U+001F), it is an optional sign followed by digits with single underscores between them; a negative result needs a minus sign |
| `Decimal.ParseShowInt` | app/main.py:128-130 | Python's `int()` inverts `str()` on every integer (CPython's 4300-digit limit aside) |
| `Decimal.ParseIntPadded` | app/main.py:130 | whitespace `int()` skips (ASCII 9-13 and 32, non-ASCII Unicode spaces) before and after a string leaves the value `int()` gives it unchanged |
| `Decimal.ParseLeadingZeros` | app/main.py:130 | leading zeros leave the value unchanged: `int("007") == 7` |
| `Decimal.ParsePlus` | app/main.py:130 | a leading plus sign leaves the value unchanged |
| `Decimal.ParseUnderscore` | app/main.py:130 | an underscore between any two non-empty digit groups, leading zeros allowed, only separates them: the value is the first group's value times ten to the second group's length plus the second group's value (`int("1_000") == 1000`) |
| `Decimal.ParseGroups` | app/main.py:130 | any unsigned literal of digit groups joined by single underscores parses to the number its digits spell with the underscores dropped |
| `Decimal.ParseSigned` | app/main.py:130 | a minus or plus sign directly before any underscore-grouped digits, leading zeros allowed, negates or keeps the value those digits spell (`int("-007") == -7`, `int("+1_000") == 1000`) |
| `Decimal.ShowIntInjective` | app/main.py:128 | `str()` is injective on integers: distinct numbers never share a spelling, so distinct hashes give distinct id suffixes |
| `Decimal.FileSeparatorIsNoSpace` | app/main.py:130 | `int()` rejects a literal led by U+001C: the ASCII separators are not whitespace to it |
| `Decimal.ShowInt` | app/main.py:128 | Python's `str()` of an integer, as used for the hash in the id and for the status in `HTTPException.__str__`: a non-empty string of digits after an optional sign, with a minus sign iff the number is negative and no leading zero unless it is 0; `int()` inverts it (`Decimal.ParseShowInt`) |
| `Decimal.ShowInt64Length` | app/main.py:128 | a signed 64-bit value prints in at most 20 characters |
| `Faults.Text` | app/main.py:149-155 | str(e) is known exactly for connection errors (the client's message), decode errors (the decoder's reason), HTTPExceptions (`<status>: <detail>`) and KeyErrors (the key in single quotes), and for no other fault |
| `Handlers.ErrorText` | app/main.py:149 | the detail is the backend's text when it is non-empty, otherwise `Ollama service error` |
| `Handlers.ChatAttempt` | app/main.py:95-150 | the try block succeeds iff the backend answered 200 with a decoded, translatable body; a connection failure raises RequestError; any other status raises HTTPException(code, text or fallback); a 200 whose body does not decode raises the decode error; a 200 with a decoded body yields exactly the response translation of that body, the requested model and the digest of the body |
| `Handlers.ChatFailure` | app/main.py:152-155 | RequestError becomes 503 with the connect prefix; every other fault, HTTPException included, becomes 500 with the internal prefix |
| `Handlers.ChatCompletions` | app/main.py:92-155 | a 200 iff the backend answered 200 with a translatable body, and then the body is the translation for the requested model; every error is 500 or 503, and 503 iff the backend was unreachable |
| `Handlers.ConnectFailureIs503` | app/main.py:152-153 | an unreachable backend yields 503 with detail `Cannot connect to Ollama: ` plus the client's message |
| `Handlers.BackendStatusIsMasked` | app/main.py:148-155 | a non-200 backend status yields 500, with the detail `Internal server error: <code>: <text or fallback>` |
| `Handlers.MissingContentIs500` | app/main.py:136 | a 200 reply lacking message or message.content yields 500; once created_at has converted, the detail is `Internal server error: 'message'` or `Internal server error: 'content'` |
| `Handlers.OnlyCompletionIs200` | app/main.py:147-155 | the status is 200 exactly when a completion is returned |
| `Handlers.ModelsAttempt` | app/main.py:75-88 | the try block succeeds iff the backend answered 200 with a decoded tag list that converts; a non-200 status raises HTTPException(503); a connection failure raises RequestError; a 200 whose body does not decode raises the decode error; a tag list that does not convert raises the fault of the conversion; a success is the `list` object holding the converted entries |
| `Handlers.ListModels` | app/main.py:72-90 | success iff the try block succeeds, and then the body is exactly the list the block built; every error is a 500 with the `Error fetching models: ` prefix and carries the fault the block raised |
| `Handlers.ModelListMirrorsTags` | app/main.py:80-86 | a well-formed tag list yields an object list with one ModelInfo per entry, in order, id equal to the name, created 0, owned_by ollama |
| `Handlers.NoModelsKeyIsEmpty` | app/main.py:81 | a reply without `models` yields an empty list |
| `Handlers.ModelsFailuresAre500` | app/main.py:88-90 | a connection failure or a non-200 status yields 500, never 503; the detail carries the client's message or `503: Ollama service unavailable` |
| `Handlers.HealthCheck` | app/main.py:59-70 | never raises; a 200 reply gives healthy and connected, any other reply unhealthy and disconnected, a failed call unhealthy with its message under `error` and no `ollama` key |
| `Scenarios.GreetingExchange` | app/main.py:92-147 | the mistral greeting with counters 5 and 3 and created_at 1000 yields the echoed model, created 1000, the content, and usage 5, 3, 8 |
| `Scenarios.TimestampCreatedAtIs500` | app/main.py:130 | a timestamp-shaped created_at makes the exchange a 500 from the ValueError of `int()` |
| `Scenarios.SingleModelList` | app/main.py:72-86 | one tag entry named mistral yields one ModelInfo mistral |
| `Scenarios.UnreachableIsUnhealthy` | app/main.py:69-70 | an unreachable backend reports unhealthy with the error message and no `ollama` key |

## Left out

- The FastAPI application, CORS middleware, the `/` banner route and the uvicorn entry point are not modelled. They are framework plumbing.
- The httpx calls, their timeouts (120 s for chat) and async/await are not modelled. A call is an input `BackendOutcome`, and a timeout is one kind of `ConnFail`.
- `OLLAMA_BASE_URL` and `DEFAULT_MODEL` are not modelled. The first only addresses the backend, and the second is never read.
- Pydantic's request validation (422 replies) happens before the handler runs and is not modelled. `ChatCompletionBody` already has the declared field types.
- Floats are not modelled. A temperature is an opaque `real` that is passed through, and the decoded JSON has no float case. `int()` of a float and `+` with a float are therefore absent.
- `hash()` and `str()` of the reply dict are not modelled. Their composition is the parameter `digest`, ranging over signed 64-bit values other than -1.
- The key order of a decoded dict is not modelled: a dict is a `map`, so `digest` cannot tell apart two replies that differ only in key order, while `str()` prints them differently and Python may give them different ids.
- Faults.Text: the wording of interpreter exceptions (AttributeError, TypeError, ValueError) and of pydantic's ValidationError is not modelled, only which exception is raised.
- Decimal.ParseInt: non-ASCII decimal digits, which Python's `int()` also accepts, are not modelled.
- Decimal.ParseInt: CPython's limit on integer-string conversion (`sys.get_int_max_str_digits`, 4300 digits by default) is not modelled. Python raises ValueError for a longer literal, and `str()` refuses such an integer; the model converts any length. Hashes and token counters are far below the limit.
- Pydantic v2 semantics are assumed for `ModelInfo(id=...)`: a non-string name is a validation error, where pydantic v1 would coerce a number to a string.
- Starlette's `HTTPException.__str__` (`"<status>: <detail>"`) is assumed when the catch-all formats a re-caught HTTPException.
- The order of keys in the returned dicts is not modelled.

=== FILE: decimal.dfy ===
/** Python's decimal conversions between `int` and `str`: `str(n)` for an integer
    and `int(s)` for a string, base 10. */
module Decimal {
  import opened Wrappers

  predicate IsDigit(c: char) {
    '0' <= c <= '9'
  }

  predicate AllDigits(s: string) {
    forall i :: 0 <= i < |s| ==> IsDigit(s[i])
  }

  function DigitChar(d: nat): (c: char)
    requires d < 10
    ensures IsDigit(c)
  {
    "0123456789"[d]
  }

  function DigitValue(c: char): (d: nat)
    requires IsDigit(c)
    ensures d < 10 && DigitChar(d) == c
  {
    c as int - '0' as int
  }

  function Pow10(k: nat): (p: nat)
    ensures p >= 1
  {
    if k == 0 then 1 else 10 * Pow10(k - 1)
  }

  /** `str(n)` for a non-negative integer: its shortest decimal spelling. */
  function ShowNat(n: nat): (s: string)
    ensures |s| > 0 && AllDigits(s)
    ensures s[0] == '0' ==> n == 0
  {
    if n < 10 then [DigitChar(n)] else ShowNat(n / 10) + [DigitChar(n % 10)]
  }

  /** `str(n)` for any integer: a minus sign in front of a negative number. */
  function ShowInt(n: int): (s: string)
    ensures |s| > 0 && (s[0] == '-' || IsDigit(s[0])) && IsDigit(s[|s| - 1])
    ensures s[0] == '-' <==> n < 0
    ensures var d := if n < 0 then s[1..] else s;
            |d| > 0 && AllDigits(d) && (d[0] == '0' ==> n == 0)
  {
    if n < 0 then "-" + ShowNat(-n) else ShowNat(n)
  }

  /** The number a run of ASCII digits spells, most significant digit first. */
  function DigitsValue(s: string): nat
    requires AllDigits(s)
  {
    if s == [] then 0 else DigitsValue(s[..|s| - 1]) * 10 + DigitValue(s[|s| - 1])
  }

  /** The characters `int()` ignores around a literal: the ASCII whitespace of C's
      `isspace` (tab, line feed, vertical tab, form feed, carriage return, space) and,
      above U+007F, the characters for which `str.isspace()` holds. The ASCII
      separators U+001C..U+001F are `str.isspace()` characters but are NOT skipped. */
  predicate IsSpace(c: char) {
    || 9 <= c as int <= 13
    || c as int == 32
    || c as int == 0x85 || c as int == 0xA0 || c as int == 0x1680
    || 0x2000 <= c as int <= 0x200A
    || c as int == 0x2028 || c as int == 0x2029 || c as int == 0x202F
    || c as int == 0x205F || c as int == 0x3000
  }

  function TrimStart(s: string): (t: string)
    ensures |t| <= |s| && t == s[|s| - |t|..]
    ensures t == [] || !IsSpace(t[0])
  {
    if s != [] && IsSpace(s[0]) then TrimStart(s[1..]) else s
  }

  function TrimEnd(s: string): (t: string)
    ensures |t| <= |s| && t == s[..|t|]
    ensures t == [] || !IsSpace(t[|t| - 1])
  {
    if s != [] && IsSpace(s[|s| - 1]) then TrimEnd(s[..|s| - 1]) else s
  }

  /** `s` without the whitespace `int()` skips around a literal. */
  function Strip(s: string): string {
    TrimEnd(TrimStart(s))
  }

  /** Python's grammar for the digits of a base-10 `int()` argument: one or more
      digits, where a single underscore may separate two digits. */
  predicate DigitGroups(s: string) {
    && |s| > 0
    && IsDigit(s[0])
    && IsDigit(s[|s| - 1])
    && forall i :: 0 < i < |s| - 1 ==> GroupChar(s, i)
  }

  /** Inside a literal, a character is a digit or an underscore between two digits. */
  predicate GroupChar(s: string, i: nat)
    requires 0 < i < |s| - 1
  {
    IsDigit(s[i]) || (s[i] == '_' && IsDigit(s[i - 1]) && IsDigit(s[i + 1]))
  }

  /** `s` with its underscores removed. */
  function Squeeze(s: string): (t: string)
    ensures forall i :: 0 <= i < |t| ==> t[i] != '_'
  {
    if s == [] then []
    else if s[0] == '_' then Squeeze(s[1..])
    else [s[0]] + Squeeze(s[1..])
  }

  lemma {:induction false} SqueezeDigitGroups(s: string)
    requires forall i :: 0 <= i < |s| ==> IsDigit(s[i]) || s[i] == '_'
    ensures AllDigits(Squeeze(s))
  {
    if s != [] {
      SqueezeDigitGroups(s[1..]);
    }
  }

  lemma {:induction false} SqueezeOfDigits(s: string)
    requires AllDigits(s)
    ensures Squeeze(s) == s
  {
    if s != [] {
      SqueezeOfDigits(s[1..]);
    }
  }

  lemma DigitGroupsChars(s: string)
    requires DigitGroups(s)
    ensures forall i :: 0 <= i < |s| ==> IsDigit(s[i]) || s[i] == '_'
  {
    forall i | 0 <= i < |s| ensures IsDigit(s[i]) || s[i] == '_' {
      if 0 < i < |s| - 1 {
        assert GroupChar(s, i);
      }
    }
  }

  /** The unsigned part of a base-10 `int()` argument; `None` where Python raises `ValueError`. */
  function ParseDigits(s: string): (r: Option<nat>)
    ensures r.Some? <==> DigitGroups(s)
  {
    if DigitGroups(s) then
      DigitGroupsChars(s);
      SqueezeDigitGroups(s);
      Some(DigitsValue(Squeeze(s)))
    else None
  }

  /** A base-10 literal as `int()` reads it once surrounding whitespace is gone:
      an optional sign directly followed by digit groups. */
  predicate IsIntLiteral(t: string) {
    || DigitGroups(t)
    || (|t| > 0 && (t[0] == '-' || t[0] == '+') && DigitGroups(t[1..]))
  }

  /** `int(s)` for a string `s`, base 10; `None` where Python raises `ValueError`. */
  function ParseInt(s: string): (r: Option<int>)
    ensures r.Some? <==> IsIntLiteral(Strip(s))
    ensures r.Some? && r.value < 0 ==> Strip(s)[0] == '-'
  {
    var t := Strip(s);
    if |t| > 0 && (t[0] == '-' || t[0] == '+') then
      match ParseDigits(t[1..])
      case None => None
      case Some(m) => if t[0] == '-' then Some(-(m as int)) else Some(m as int)
    else
      match ParseDigits(t)
      case None => None
      case Some(m) => Some(m as int)
  }

  lemma {:induction false} DigitsValueOfShowNat(n: nat)
    ensures DigitsValue(ShowNat(n)) == n
  {
    if n >= 10 {
      var s := ShowNat(n);
      assert s[..|s| - 1] == ShowNat(n / 10);
      DigitsValueOfShowNat(n / 10);
    }
  }

  lemma StripUnpadded(s: string)
    requires |s| > 0 && !IsSpace(s[0]) && !IsSpace(s[|s| - 1])
    ensures Strip(s) == s
  {
  }

  /** `int(str(n)) == n`: parsing inverts printing. */
  lemma ParseShowInt(n: int)
    ensures ParseInt(ShowInt(n)) == Some(n)
  {
    var s := ShowInt(n);
    StripUnpadded(s);
    var m: nat := if n < 0 then -n else n;
    ParseDigitsShowNat(m);
    if n < 0 {
      assert s[1..] == ShowNat(m);
    } else {
      assert s == ShowNat(m);
    }
  }

  lemma ParseDigitsShowNat(m: nat)
    ensures ParseDigits(ShowNat(m)) == Some(m)
  {
    var d := ShowNat(m);
    assert DigitGroups(d) by {
      forall i | 0 < i < |d| - 1 ensures GroupChar(d, i) {
        assert IsDigit(d[i]);
      }
    }
    SqueezeOfDigits(d);
    DigitsValueOfShowNat(m);
  }

  /** Printing is injective: distinct integers have distinct spellings. */
  lemma ShowIntInjective(a: int, b: int)
    requires ShowInt(a) == ShowInt(b)
    ensures a == b
  {
    ParseShowInt(a);
    ParseShowInt(b);
  }

  lemma {:induction false} ShowNatLength(n: nat, k: nat)
    requires 1 <= k && n < Pow10(k)
    ensures |ShowNat(n)| <= k
  {
    if n >= 10 {
      assert k >= 2;
      ShowNatLength(n / 10, k - 1);
    }
  }

  lemma {:induction false} Pow10Add(a: nat, b: nat)
    ensures Pow10(a + b) == Pow10(a) * Pow10(b)
  {
    if a > 0 {
      Pow10Add(a - 1, b);
    }
  }

  /** A 64-bit signed integer prints in at most 20 characters. */
  lemma ShowInt64Length(n: int)
    requires -0x8000_0000_0000_0000 <= n < 0x8000_0000_0000_0000
    ensures |ShowInt(n)| <= 20
  {
    assert Pow10(3) == 1000;
    Pow10Add(3, 3);
    Pow10Add(6, 6);
    Pow10Add(12, 6);
    Pow10Add(18, 1);
    assert Pow10(19) == 10_000_000_000_000_000_000;
    ShowNatLength(if n < 0 then -n else n, 19);
  }

  // ---------------------------------------------------------------------------
  // The value `int()` gives to literals `str()` never prints
  // ---------------------------------------------------------------------------

  predicate AllSpace(w: string) {
    forall i :: 0 <= i < |w| ==> IsSpace(w[i])
  }

  lemma {:induction false} TrimStartSkipsPad(w: string, s: string)
    requires AllSpace(w)
    ensures TrimStart(w + s) == TrimStart(s)
  {
    if w != [] {
      var ws := w + s;
      assert ws[0] == w[0] && IsSpace(ws[0]);
      assert ws[1..] == w[1..] + s;
      assert TrimStart(ws) == TrimStart(ws[1..]);
      TrimStartSkipsPad(w[1..], s);
    } else {
      assert w + s == s;
    }
  }

  lemma {:induction false} TrimEndSkipsPad(s: string, w: string)
    requires AllSpace(w)
    ensures TrimEnd(s + w) == TrimEnd(s)
  {
    if w != [] {
      var sw := s + w;
      assert sw[|sw| - 1] == w[|w| - 1] && IsSpace(sw[|sw| - 1]);
      assert sw[..|sw| - 1] == s + w[..|w| - 1];
      assert TrimEnd(sw) == TrimEnd(sw[..|sw| - 1]);
      TrimEndSkipsPad(s, w[..|w| - 1]);
    } else {
      assert s + w == s;
    }
  }

  lemma {:induction false} StripSkipsTrailingPad(s: string, w: string)
    requires AllSpace(w)
    ensures Strip(s + w) == Strip(s)
  {
    if s == [] {
      assert s + w == w + [];
      TrimStartSkipsPad(w, []);
    } else if IsSpace(s[0]) {
      assert (s + w)[1..] == s[1..] + w;
      StripSkipsTrailingPad(s[1..], w);
    } else {
      TrimEndSkipsPad(s, w);
    }
  }

  lemma ParseIntOfStrip(s: string, t: string)
    requires Strip(s) == Strip(t)
    ensures ParseInt(s) == ParseInt(t)
  {
  }

  /** Whitespace around a literal does not change its value. */
  lemma ParseIntPadded(w1: string, s: string, w2: string)
    requires AllSpace(w1) && AllSpace(w2)
    ensures ParseInt(w1 + s + w2) == ParseInt(s)
  {
    assert w1 + s + w2 == w1 + (s + w2);
    TrimStartSkipsPad(w1, s + w2);
    StripSkipsTrailingPad(s, w2);
    assert Strip(w1 + s + w2) == Strip(s);
    ParseIntOfStrip(w1 + s + w2, s);
  }

  lemma {:induction false} DigitsValueConcat(x: string, y: string)
    requires AllDigits(x) && AllDigits(y)
    ensures DigitsValue(x + y) == DigitsValue(x) * Pow10(|y|) + DigitsValue(y)
  {
    if y == [] {
      assert x + y == x;
    } else {
      var z := x + y;
      var y' := y[..|y| - 1];
      assert z[..|z| - 1] == x + y';
      DigitsValueConcat(x, y');
      assert y[..|y| - 1] == y';
      ShiftDigit(DigitsValue(x), Pow10(|y'|), DigitsValue(y'), DigitValue(y[|y| - 1]));
    }
  }

  lemma ShiftDigit(a: int, p: int, b: int, d: int)
    ensures (a * p + b) * 10 + d == a * (10 * p) + (b * 10 + d)
  {
  }

  function Zeros(k: nat): (z: string)
    ensures |z| == k && AllDigits(z)
    ensures forall i :: 0 <= i < k ==> z[i] == '0'
  {
    seq(k, _ => '0')
  }

  lemma {:induction false} DigitsValueOfZeros(k: nat)
    ensures DigitsValue(Zeros(k)) == 0
  {
    if k > 0 {
      assert Zeros(k)[..k - 1] == Zeros(k - 1);
      DigitsValueOfZeros(k - 1);
    }
  }

  /** Leading zeros do not change the value: `int("007") == 7`. */
  lemma ParseLeadingZeros(k: nat, n: nat)
    ensures ParseInt(Zeros(k) + ShowNat(n)) == Some(n)
  {
    var s := Zeros(k) + ShowNat(n);
    DigitsAreGroups(s);
    ParseUnsigned(s);
    SqueezeOfDigits(s);
    assert ParseDigits(s).value == DigitsValue(s);
    DigitsValueConcat(Zeros(k), ShowNat(n));
    DigitsValueOfZeros(k);
    DigitsValueOfShowNat(n);
    assert DigitsValue(s) == n;
  }

  lemma DigitsAreGroups(s: string)
    requires |s| > 0 && AllDigits(s)
    ensures DigitGroups(s)
  {
    forall i | 0 < i < |s| - 1 ensures GroupChar(s, i) {
    }
  }

  /** A leading plus sign does not change the value: `int("+7") == 7`. */
  lemma ParsePlus(n: nat)
    ensures ParseInt("+" + ShowNat(n)) == Some(n)
  {
    var s := "+" + ShowNat(n);
    StripUnpadded(s);
    assert s[1..] == ShowNat(n);
    SqueezeOfDigits(ShowNat(n));
    DigitsValueOfShowNat(n);
  }

  lemma {:induction false} SqueezeConcat(x: string, y: string)
    ensures Squeeze(x + y) == Squeeze(x) + Squeeze(y)
  {
    if x == [] {
      assert x + y == y;
    } else {
      assert (x + y)[0] == x[0];
      assert (x + y)[1..] == x[1..] + y;
      SqueezeConcat(x[1..], y);
    }
  }

  /** An underscore between two digit groups only separates them; either group may
      carry leading zeros: `int("1_000") == 1000`, `int("007_05") == 705`. */
  lemma ParseUnderscore(x: string, y: string)
    requires |x| > 0 && |y| > 0 && AllDigits(x) && AllDigits(y)
    ensures ParseInt(x + "_" + y) == Some(DigitsValue(x) * Pow10(|y|) + DigitsValue(y))
  {
    ParseUnderscoreDigits(x, y);
    var v := DigitsValue(x + y);
    assert ParseInt(x + "_" + y) == Some(v as int);
    DigitsValueConcat(x, y);
    assert v == DigitsValue(x) * Pow10(|y|) + DigitsValue(y);
  }

  /** Any unsigned, unpadded literal of underscore-separated digit groups parses to
      the number its digits spell once the underscores are dropped. */
  lemma ParseGroups(s: string)
    requires DigitGroups(s)
    ensures AllDigits(Squeeze(s)) && ParseInt(s) == Some(DigitsValue(Squeeze(s)) as int)
  {
    ParseUnsigned(s);
    ParseDigitsValue(s);
  }

  /** A sign directly before any digit groups applies to their value, leading zeros
      and underscores included: `int("-007") == -7`, `int("+1_000") == 1000`. */
  lemma ParseSigned(g: string)
    requires DigitGroups(g)
    ensures AllDigits(Squeeze(g))
    ensures ParseInt("-" + g) == Some(-(DigitsValue(Squeeze(g)) as int))
    ensures ParseInt("+" + g) == Some(DigitsValue(Squeeze(g)) as int)
  {
    ParseDigitsValue(g);
    StripUnpadded("-" + g);
    StripUnpadded("+" + g);
    assert ("-" + g)[1..] == g;
    assert ("+" + g)[1..] == g;
  }

  /** The ASCII separator U+001C is not whitespace to `int()`. */
  lemma FileSeparatorIsNoSpace()
    ensures ParseInt([28 as char, '7']) == None
  {
    var s := [28 as char, '7'];
    assert !IsSpace(s[0]) && !IsSpace(s[1]);
    assert Strip(s) == s;
    assert !IsDigit(s[0]) && s[0] != '-' && s[0] != '+';
  }

  lemma ParseUnderscoreDigits(x: string, y: string)
    requires |x| > 0 && |y| > 0 && AllDigits(x) && AllDigits(y)
    ensures AllDigits(x + y) && ParseInt(x + "_" + y) == Some(DigitsValue(x + y) as int)
  {
    var s := x + "_" + y;
    UnderscoreGroups(x, y);
    ParseUnsigned(s);
    ParseDigitsValue(s);
    SqueezeUnderscore(x, y);
  }

  lemma ParseDigitsValue(s: string)
    requires DigitGroups(s)
    ensures AllDigits(Squeeze(s)) && ParseDigits(s) == Some(DigitsValue(Squeeze(s)))
  {
    DigitGroupsChars(s);
    SqueezeDigitGroups(s);
  }

  /** An unsigned, unpadded literal parses to the value of its digit groups. */
  lemma ParseUnsigned(s: string)
    requires DigitGroups(s)
    ensures ParseInt(s).Some? && ParseDigits(s).Some? && ParseInt(s).value == ParseDigits(s).value
  {
    StripUnpadded(s);
  }

  lemma UnderscoreGroups(x: string, y: string)
    requires |x| > 0 && |y| > 0 && AllDigits(x) && AllDigits(y)
    ensures DigitGroups(x + "_" + y)
  {
    var s := x + "_" + y;
    assert DigitGroups(s) by {
      forall i | 0 < i < |s| - 1 ensures GroupChar(s, i) {
        if i < |x| {
          assert s[i] == x[i];
        } else if i == |x| {
          assert s[i - 1] == x[|x| - 1] && s[i + 1] == y[0];
        } else {
          assert s[i] == y[i - |x| - 1];
        }
      }
    }
  }

  lemma SqueezeUnderscore(x: string, y: string)
    requires AllDigits(x) && AllDigits(y)
    ensures Squeeze(x + "_" + y) == x + y
  {
    SqueezeConcat(x + "_", y);
    SqueezeConcat(x, "_");
    SqueezeOfDigits(x);
    SqueezeOfDigits(y);
    assert Squeeze("_") == [];
  }
}

=== FILE: faults.dfy ===
/** The exceptions that can escape from the body of a handler's `try` block, and
    the text `str(e)` gives for each. */
module Faults {
  import opened Wrappers
  import Decimal

  datatype Fault =
    /** `httpx.RequestError`: the backend could not be reached or did not answer in time. */
    | ConnectError(msg: string)
    /** The error `response.json()` raises on a body that is not JSON. */
    | DecodeError(reason: string)
    /** An `HTTPException(status_code, detail)` raised inside the `try` block itself. */
    | Raised(code: int, detail: string)
    /** `KeyError(key)` from `d[key]` on a dict that lacks `key`. */
    | MissingKey(key: string)
    /** `AttributeError` from `x.attr` on a value of the named type. */
    | NoAttribute(typeName: string, attr: string)
    /** `TypeError` from `x["key"]` on a value of the named type that is not a dict. */
    | NotSubscriptable(typeName: string)
    /** `TypeError` from `for x in v` on a value of the named type. */
    | NotIterable(typeName: string)
    /** `TypeError` from `int(v)` on a value of the named type. */
    | IntArgument(typeName: string)
    /** `ValueError` from `int(s)` on a string that is no base-10 literal. */
    | IntLiteral(text: string)
    /** `TypeError` from `a + b` on operands of the named types. */
    | Operands(left: string, right: string)
    /** Pydantic's `ValidationError` for the named field of a record. */
    | Invalid(field: string)

  /** `str(e)` for the faults whose text this code or the backend fixes. Starlette's
      `HTTPException.__str__` reads `"<status>: <detail>"`, and a `KeyError` shows the
      key quoted. The interpreter's and pydantic's own wording is not part of this model. */
  function Text(f: Fault): (t: Option<string>)
    ensures t.Some? <==> (f.ConnectError? || f.DecodeError? || f.Raised? || f.MissingKey?)
    ensures f.ConnectError? ==> t == Some(f.msg)
    ensures f.DecodeError? ==> t == Some(f.reason)
    ensures f.Raised? ==> t == Some(Decimal.ShowInt(f.code) + ": " + f.detail)
    ensures f.MissingKey? ==> t == Some("'" + f.key + "'")
  {
    match f
    case ConnectError(msg) => Some(msg)
    case DecodeError(reason) => Some(reason)
    case Raised(code, detail) => Some(Decimal.ShowInt(code) + ": " + detail)
    case MissingKey(key) => Some("'" + key + "'")
    case _ => None
  }

  /** The `detail` of an error reply: the f-string prefix the handler puts before `str(e)`. */
  datatype Detail = Detail(prefix: string, cause: Fault) {
    /** The detail as the caller reads it, where the text of the cause is fixed. */
    function Rendered(): Option<string> {
      match Text(cause)
      case Some(t) => Some(prefix + t)
      case None => None
    }
  }
}

=== FILE: handlers.dfy ===
/** The three backend-facing endpoints of `app/main.py` — `/v1/chat/completions`,
    `/v1/models` and `/health` — as total functions from the backend's answer to the
    HTTP reply. Each handler is written in two stages, as the source is: the body of
    the `try` block, which yields a value or raises a `Fault`, and the `except`
    clauses, which turn that fault into an error reply. */
module Handlers {
  import opened Wrappers
  import opened Faults
  import opened Json
  import opened Schema
  import opened Translate
  import Decimal

  /** The body of a backend reply as `response.json()` sees it. */
  datatype Decoded = Parsed(value: Json) | Undecodable(reason: string)

  /** What one backend call yields: an HTTP reply with its status, its text and its
      decoded body, or an `httpx.RequestError` (refused connection, DNS failure,
      timeout) carrying its message. */
  datatype BackendOutcome = Reply(code: int, text: string, body: Decoded) | ConnFail(msg: string)

  /** The reply a handler returns: a body with status 200, or an `HTTPException`. */
  datatype HttpResult<+T> = Ok(body: T) | Error(status: int, detail: Detail) {
    function Status(): int {
      if Ok? then 200 else status
    }
  }

  const ConnectPrefix := "Cannot connect to Ollama: "
  const InternalPrefix := "Internal server error: "
  const FetchPrefix := "Error fetching models: "
  const ServiceError := "Ollama service error"
  const ServiceUnavailable := "Ollama service unavailable"

  // ---------------------------------------------------------------------------
  // POST /v1/chat/completions
  // ---------------------------------------------------------------------------

  /** `response.text if response.text else "Ollama service error"`. */
  function ErrorText(text: string): (t: string)
    ensures t != []
    ensures text != [] ==> t == text
    ensures text == [] ==> t == "Ollama service error"
  {
    if text != [] then text else ServiceError
  }

  /** The `try` block of `chat_completions` once the backend has answered: a
      completion for status 200 and a translatable body, otherwise the exception the
      block raises. A non-200 status raises `HTTPException(status, text)` here. */
  function ChatAttempt(model: string, outcome: BackendOutcome, digest: Json -> PyHash): (r: Result<ChatCompletion, Fault>)
    ensures r.Success? <==> outcome.Reply? && outcome.code == 200 && outcome.body.Parsed? && Translatable(outcome.body.value)
    ensures outcome.ConnFail? ==> r == Failure(ConnectError(outcome.msg))
    ensures outcome.Reply? && outcome.code != 200 ==> r == Failure(Raised(outcome.code, ErrorText(outcome.text)))
    ensures outcome.Reply? && outcome.code == 200 && outcome.body.Undecodable? ==> r == Failure(DecodeError(outcome.body.reason))
    ensures outcome.Reply? && outcome.code == 200 && outcome.body.Parsed? ==>
              r == FromOllamaReply(outcome.body.value, model, digest(outcome.body.value))
  {
    match outcome
    case ConnFail(msg) => Failure(ConnectError(msg))
    case Reply(code, text, body) =>
      if code == 200 then
        match body
        case Undecodable(reason) => Failure(DecodeError(reason))
        case Parsed(v) => FromOllamaReply(v, model, digest(v))
      else
        Failure(Raised(code, ErrorText(text)))
  }

  /** The two `except` clauses of `chat_completions`: `httpx.RequestError` becomes 503,
      every other exception — including the `HTTPException` the block itself raised —
      becomes 500. */
  function ChatFailure(f: Fault): (r: HttpResult<ChatCompletion>)
    ensures r.Error?
    ensures r.status == 503 <==> f.ConnectError?
    ensures r.status == 500 <==> !f.ConnectError?
    ensures r.detail.cause == f
    ensures r.detail.prefix == if f.ConnectError? then ConnectPrefix else InternalPrefix
  {
    if f.ConnectError? then Error(503, Detail(ConnectPrefix, f)) else Error(500, Detail(InternalPrefix, f))
  }

  /** `chat_completions(request)`: the payload built from the request is sent with
      `send`; `digest` is `hash(str(·))` of the decoded reply. */
  function ChatCompletions(req: ChatCompletionRequest, send: OllamaChatRequest -> BackendOutcome, digest: Json -> PyHash): (r: HttpResult<ChatCompletion>)
    ensures var outcome := send(ToOllamaRequest(req));
            && (r.Ok? <==> outcome.Reply? && outcome.code == 200 && outcome.body.Parsed? && Translatable(outcome.body.value))
            && (r.Ok? ==> r.body == FromOllamaReply(outcome.body.value, req.model, digest(outcome.body.value)).value)
            && (r.Ok? ==> r.body.model == req.model && |r.body.choices| == 1)
            && (r.Error? ==> r.status == 503 || r.status == 500)
            && (r.Error? ==> (r.status == 503 <==> outcome.ConnFail?))
  {
    match ChatAttempt(req.model, send(ToOllamaRequest(req)), digest)
    case Success(c) => Ok(c)
    case Failure(f) => ChatFailure(f)
  }

  /** A backend that cannot be reached yields 503 with the client's message after a
      fixed prefix, whatever the request. */
  lemma ConnectFailureIs503(req: ChatCompletionRequest, send: OllamaChatRequest -> BackendOutcome, digest: Json -> PyHash)
    requires send(ToOllamaRequest(req)).ConnFail?
    ensures var r := ChatCompletions(req, send, digest);
            && r.Status() == 503
            && r.detail.Rendered() == Some(ConnectPrefix + send(ToOllamaRequest(req)).msg)
  {
  }

  /** The backend's own error status is not passed on: the `HTTPException` carrying it
      is raised inside the `try` block and re-caught by the catch-all, so the caller
      sees 500 and reads the status only inside the detail text. */
  lemma BackendStatusIsMasked(req: ChatCompletionRequest, send: OllamaChatRequest -> BackendOutcome, digest: Json -> PyHash)
    requires send(ToOllamaRequest(req)).Reply? && send(ToOllamaRequest(req)).code != 200
    ensures var outcome := send(ToOllamaRequest(req));
            var r := ChatCompletions(req, send, digest);
            && r.Status() == 500
            && r.detail.Rendered() == Some(InternalPrefix + Decimal.ShowInt(outcome.code) + ": " + ErrorText(outcome.text))
  {
    var outcome := send(ToOllamaRequest(req));
    var shown := Decimal.ShowInt(outcome.code);
    var text := ErrorText(outcome.text);
    assert InternalPrefix + (shown + ": " + text) == InternalPrefix + shown + ": " + text;
  }

  /** A reply without `message` or without `message.content` is a 500, never a
      completion with empty content. Once `created_at` has converted, the detail
      names the missing key as a `KeyError` shows it. */
  lemma MissingContentIs500(req: ChatCompletionRequest, send: OllamaChatRequest -> BackendOutcome, digest: Json -> PyHash)
    requires var outcome := send(ToOllamaRequest(req));
             && outcome.Reply? && outcome.code == 200 && outcome.body.Parsed? && outcome.body.value.JObj?
             && var v := outcome.body.value;
                "message" !in v.fields || (v.fields["message"].JObj? && "content" !in v.fields["message"].fields)
    ensures ChatCompletions(req, send, digest).Status() == 500
    ensures var v := send(ToOllamaRequest(req)).body.value;
            IntConvertible(FieldOr(v, "created_at", JInt(0))) && "message" !in v.fields ==>
              ChatCompletions(req, send, digest).detail.Rendered() == Some(InternalPrefix + "'message'")
    ensures var v := send(ToOllamaRequest(req)).body.value;
            IntConvertible(FieldOr(v, "created_at", JInt(0))) && "message" in v.fields ==>
              ChatCompletions(req, send, digest).detail.Rendered() == Some(InternalPrefix + "'content'")
  {
    var outcome := send(ToOllamaRequest(req));
    var v := outcome.body.value;
    var r := ChatCompletions(req, send, digest);
    assert ChatAttempt(req.model, outcome, digest) == FromOllamaReply(v, req.model, digest(v));
    if IntConvertible(FieldOr(v, "created_at", JInt(0))) {
      var key := if "message" in v.fields then "content" else "message";
      assert FromOllamaReply(v, req.model, digest(v)) == Failure(MissingKey(key));
      assert r == Error(500, Detail(InternalPrefix, MissingKey(key)));
      assert r.detail.Rendered() == Some(InternalPrefix + ("'" + key + "'"));
      assert "'" + key + "'" == if "message" in v.fields then "'content'" else "'message'";
    }
  }

  /** Every failure path ends in 500 or 503; only a completion is a 200. */
  lemma OnlyCompletionIs200(req: ChatCompletionRequest, send: OllamaChatRequest -> BackendOutcome, digest: Json -> PyHash)
    ensures var r := ChatCompletions(req, send, digest);
            r.Status() == 200 <==> r.Ok?
  {
  }

  // ---------------------------------------------------------------------------
  // GET /v1/models
  // ---------------------------------------------------------------------------

  /** The `try` block of `list_models`: a non-200 status raises `HTTPException(503, …)`. */
  function ModelsAttempt(outcome: BackendOutcome): (r: Result<ModelList, Fault>)
    ensures r.Success? <==> outcome.Reply? && outcome.code == 200 && outcome.body.Parsed? && ModelsOf(outcome.body.value).Success?
    ensures r.Success? ==> r.value == ModelList("list", ModelsOf(outcome.body.value).value)
    ensures outcome.Reply? && outcome.code != 200 ==> r == Failure(Raised(503, ServiceUnavailable))
    ensures outcome.ConnFail? ==> r == Failure(ConnectError(outcome.msg))
    ensures outcome.Reply? && outcome.code == 200 && outcome.body.Undecodable? ==> r == Failure(DecodeError(outcome.body.reason))
    ensures outcome.Reply? && outcome.code == 200 && outcome.body.Parsed? && ModelsOf(outcome.body.value).Failure? ==>
              r == Failure(ModelsOf(outcome.body.value).error)
  {
    match outcome
    case ConnFail(msg) => Failure(ConnectError(msg))
    case Reply(code, text, body) =>
      if code == 200 then
        match body
        case Undecodable(reason) => Failure(DecodeError(reason))
        case Parsed(v) =>
          var data :- ModelsOf(v);
          Success(ModelList("list", data))
      else
        Failure(Raised(503, ServiceUnavailable))
  }

  /** `list_models()`: its single `except Exception` turns every fault, the 503 it
      raised itself and a connection failure included, into 500. */
  function ListModels(outcome: BackendOutcome): (r: HttpResult<ModelList>)
    ensures r.Ok? <==> ModelsAttempt(outcome).Success?
    ensures r.Ok? ==> r.body == ModelsAttempt(outcome).value
    ensures r.Error? ==> r.status == 500 && r.detail.prefix == FetchPrefix
    ensures r.Error? ==> ModelsAttempt(outcome) == Failure(r.detail.cause)
  {
    match ModelsAttempt(outcome)
    case Success(list) => Ok(list)
    case Failure(f) => Error(500, Detail(FetchPrefix, f))
  }

  /** A well-formed tag list gives one `ModelInfo` per entry, in order, named after it. */
  lemma ModelListMirrorsTags(outcome: BackendOutcome)
    requires outcome.Reply? && outcome.code == 200 && outcome.body.Parsed?
    requires var v := outcome.body.value;
             v.JObj? && "models" in v.fields && v.fields["models"].JArr?
             && forall i :: 0 <= i < |v.fields["models"].items| ==> NamedEntry(v.fields["models"].items[i])
    ensures var items := outcome.body.value.fields["models"].items;
            var r := ListModels(outcome);
            && r.Ok? && r.body.objectTag == "list" && |r.body.data| == |items|
            && forall i :: 0 <= i < |items| ==>
                 r.body.data[i] == ModelInfo(items[i].fields["name"].s, "model", 0, OwnedBy)
  {
  }

  /** A tag reply without a `models` key is an empty list. */
  lemma NoModelsKeyIsEmpty(outcome: BackendOutcome)
    requires outcome.Reply? && outcome.code == 200 && outcome.body.Parsed?
    requires outcome.body.value.JObj? && "models" !in outcome.body.value.fields
    ensures ListModels(outcome) == Ok(ModelList("list", []))
  {
  }

  /** Neither an unreachable backend nor a backend error shows as 503 on this route. */
  lemma ModelsFailuresAre500(outcome: BackendOutcome)
    requires outcome.ConnFail? || (outcome.Reply? && outcome.code != 200)
    ensures ListModels(outcome).Status() == 500
    ensures outcome.ConnFail? ==> ListModels(outcome).detail.Rendered() == Some(FetchPrefix + outcome.msg)
    ensures outcome.Reply? ==> ListModels(outcome).detail.Rendered() == Some(FetchPrefix + "503: " + ServiceUnavailable)
  {
    if outcome.Reply? {
      assert Decimal.ShowInt(503) == "503";
      assert FetchPrefix + ("503" + ": " + ServiceUnavailable) == FetchPrefix + "503: " + ServiceUnavailable;
    }
  }

  // ---------------------------------------------------------------------------
  // GET /health
  // ---------------------------------------------------------------------------

  /** `health_check()`: never raises. Healthy exactly when the backend answers 200; an
      exception is reported in an `error` key instead of the `ollama` key. */
  function HealthCheck(outcome: BackendOutcome): (h: Health)
    ensures h.status == "healthy" <==> outcome.Reply? && outcome.code == 200
    ensures h.status == "healthy" || h.status == "unhealthy"
    ensures h.ollama.Some? <==> outcome.Reply?
    ensures h.ollama.Some? ==> (h.ollama.value == "connected" <==> h.status == "healthy")
    ensures h.error.Some? <==> outcome.ConnFail?
    ensures outcome.ConnFail? ==> h.error.value == outcome.msg
    ensures outcome.Reply? && outcome.code == 200 ==> h == Health("healthy", Some("connected"), None)
    ensures outcome.Reply? && outcome.code != 200 ==> h == Health("unhealthy", Some("disconnected"), None)
    ensures outcome.ConnFail? ==> h == Health("unhealthy", None, Some(outcome.msg))
  {
    match outcome
    case Reply(code, _, _) =>
      if code == 200 then Health("healthy", Some("connected"), None)
      else Health("unhealthy", Some("disconnected"), None)
    case ConnFail(msg) => Health("unhealthy", None, Some(msg))
  }
}

=== FILE: json.dfy ===
/** Decoded JSON values as Python holds them after `response.json()`, and the
    handful of Python operations the handlers apply to them. */
module Json {
  import opened Wrappers
  import opened Faults
  import Decimal

  /** A decoded JSON document: `None`, `bool`, `int`, `str`, `list` or `dict`. */
  datatype Json =
    | JNull
    | JBool(b: bool)
    | JInt(i: int)
    | JStr(s: string)
    | JArr(items: seq<Json>)
    | JObj(fields: map<string, Json>)

  /** `type(v).__name__`. */
  function TypeName(v: Json): string {
    match v
    case JNull => "NoneType"
    case JBool(_) => "bool"
    case JInt(_) => "int"
    case JStr(_) => "str"
    case JArr(_) => "list"
    case JObj(_) => "dict"
  }

  /** `v.get(key, default)`: only a dict has `.get`. */
  function Get(v: Json, key: string, default: Json): (r: Result<Json, Fault>)
    ensures r.Failure? <==> !v.JObj?
    ensures r.Failure? ==> r.error == NoAttribute(TypeName(v), "get")
    ensures r.Success? && key in v.fields ==> r.value == v.fields[key]
    ensures r.Success? && key !in v.fields ==> r.value == default
  {
    match v
    case JObj(fields) => Success(if key in fields then fields[key] else default)
    case _ => Failure(NoAttribute(TypeName(v), "get"))
  }

  /** `d.get(key, default)` on a value already known to be a dict. */
  function FieldOr(v: Json, key: string, default: Json): Json
    requires v.JObj?
  {
    if key in v.fields then v.fields[key] else default
  }

  /** `v[key]` with a string key. */
  function Subscript(v: Json, key: string): (r: Result<Json, Fault>)
    ensures r.Success? <==> v.JObj? && key in v.fields
    ensures r.Success? ==> r.value == v.fields[key]
    ensures v.JObj? && key !in v.fields ==> r == Failure(MissingKey(key))
    ensures !v.JObj? ==> r == Failure(NotSubscriptable(TypeName(v)))
  {
    match v
    case JObj(fields) => if key in fields then Success(fields[key]) else Failure(MissingKey(key))
    case _ => Failure(NotSubscriptable(TypeName(v)))
  }

  /** A `bool` is an `int` in Python: `True + 1 == 2`, `int(True) == 1`. */
  predicate IsIntLike(v: Json) {
    v.JInt? || v.JBool?
  }

  function IntValue(v: Json): int
    requires IsIntLike(v)
  {
    if v.JInt? then v.i else if v.b then 1 else 0
  }

  /** `int(v)` on a decoded JSON value. */
  function ToInt(v: Json): (r: Result<int, Fault>)
    ensures IsIntLike(v) ==> r == Success(IntValue(v))
    ensures v.JStr? ==> (r.Success? <==> Decimal.ParseInt(v.s).Some?)
    ensures v.JStr? && r.Success? ==> Decimal.ParseInt(v.s) == Some(r.value)
    ensures v.JStr? && r.Failure? ==> r.error == IntLiteral(v.s)
    ensures (v.JNull? || v.JArr? || v.JObj?) ==> r == Failure(IntArgument(TypeName(v)))
  {
    match v
    case JInt(i) => Success(i)
    case JBool(b) => Success(if b then 1 else 0)
    case JStr(s) =>
      (match Decimal.ParseInt(s)
       case Some(n) => Success(n)
       case None => Failure(IntLiteral(s)))
    case _ => Failure(IntArgument(TypeName(v)))
  }

  /** The values on which `int(v)` succeeds. */
  predicate IntConvertible(v: Json) {
    IsIntLike(v) || (v.JStr? && Decimal.ParseInt(v.s).Some?)
  }

  /** `a + b` on decoded JSON values: numbers add, strings and lists concatenate,
      every other pairing raises `TypeError`. */
  function Add(a: Json, b: Json): (r: Result<Json, Fault>)
    ensures IsIntLike(a) && IsIntLike(b) ==> r == Success(JInt(IntValue(a) + IntValue(b)))
    ensures a.JStr? && b.JStr? ==> r == Success(JStr(a.s + b.s))
    ensures a.JArr? && b.JArr? ==> r == Success(JArr(a.items + b.items))
    ensures r.Failure? <==> !Addable(a, b)
    ensures r.Failure? ==> r.error == Operands(TypeName(a), TypeName(b))
  {
    if IsIntLike(a) && IsIntLike(b) then Success(JInt(IntValue(a) + IntValue(b)))
    else if a.JStr? && b.JStr? then Success(JStr(a.s + b.s))
    else if a.JArr? && b.JArr? then Success(JArr(a.items + b.items))
    else Failure(Operands(TypeName(a), TypeName(b)))
  }

  /** The operand pairs on which Python's `+` succeeds. */
  predicate Addable(a: Json, b: Json) {
    (IsIntLike(a) && IsIntLike(b)) || (a.JStr? && b.JStr?) || (a.JArr? && b.JArr?)
  }
}

=== FILE: scenarios.dfy ===
/** Concrete exchanges worked through the model. */
module Scenarios {
  import opened Wrappers
  import opened Faults
  import opened Json
  import opened Schema
  import opened Translate
  import opened Handlers
  import Decimal

  /** One user turn to `mistral` with temperature 0.7, answered by the backend with
      content, a creation time and both counters. */
  lemma GreetingExchange()
    ensures var body := ChatCompletionBody("mistral", [ChatMessage("user", "Hello! How are you?")], Given(0.7), Omitted, Omitted);
            var reply := JObj(map[
              "message" := JObj(map["content" := JStr("I'm fine!")]),
              "created_at" := JInt(1000),
              "prompt_eval_count" := JInt(5),
              "eval_count" := JInt(3)]);
            var r := ChatCompletions(Validate(body), _ => Reply(200, "", Parsed(reply)), _ => 42);
            && r.Ok?
            && r.body.model == "mistral"
            && r.body.created == 1000
            && r.body.choices == [Choice(0, AssistantMessage("assistant", JStr("I'm fine!")), "stop")]
            && r.body.usage == Usage(JInt(5), JInt(3), JInt(8))
  {
    var reply := JObj(map[
      "message" := JObj(map["content" := JStr("I'm fine!")]),
      "created_at" := JInt(1000),
      "prompt_eval_count" := JInt(5),
      "eval_count" := JInt(3)]);
    assert Translatable(reply);
  }

  /** A `created_at` in the timestamp form the backend writes is no integer literal,
      so `int()` raises and the whole exchange ends as 500. */
  lemma TimestampCreatedAtIs500(req: ChatCompletionRequest)
    ensures var stamp := "2023-08-04T19:22:45Z";
            var reply := JObj(map[
              "message" := JObj(map["content" := JStr("hi")]),
              "created_at" := JStr(stamp)]);
            var r := ChatCompletions(req, _ => Reply(200, "", Parsed(reply)), _ => 7);
            && r.Status() == 500
            && r.detail == Detail(InternalPrefix, IntLiteral(stamp))
  {
    var stamp := "2023-08-04T19:22:45Z";
    StampIsNoInteger(stamp);
    var reply := JObj(map[
      "message" := JObj(map["content" := JStr("hi")]),
      "created_at" := JStr(stamp)]);
    assert FromOllamaReply(reply, req.model, 7) == Failure(IntLiteral(stamp));
  }

  lemma StampIsNoInteger(stamp: string)
    requires stamp == "2023-08-04T19:22:45Z"
    ensures Decimal.ParseInt(stamp) == None
  {
    Decimal.StripUnpadded(stamp);
    assert !Decimal.GroupChar(stamp, 4);
    assert Decimal.ParseDigits(stamp) == None;
  }

  /** A tag list with one entry gives a list with one model. */
  lemma SingleModelList()
    ensures var reply := JObj(map["models" := JArr([JObj(map["name" := JStr("mistral")])])]);
            ListModels(Reply(200, "", Parsed(reply))) == Ok(ModelList("list", [ModelInfo("mistral", "model", 0, "ollama")]))
  {
    var entry := JObj(map["name" := JStr("mistral")]);
    assert NamedEntry(entry);
    var infos := ToModelInfos([entry]);
    assert infos.Success?;
    assert infos.value == [ModelInfo("mistral", "model", 0, "ollama")];
    var reply := JObj(map["models" := JArr([entry])]);
    assert ModelsOf(reply) == infos;
  }

  /** An unreachable backend makes the service unhealthy without raising. */
  lemma UnreachableIsUnhealthy(msg: string)
    ensures HealthCheck(ConnFail(msg)) == Health("unhealthy", None, Some(msg))
  {
  }
}

=== FILE: schema.dfy ===
/** The records of the public (OpenAI) schema and of the backend (Ollama) schema. */
module Schema {
  import opened Wrappers
  import opened Json

  /** One turn of a conversation; the role is not checked against a fixed set. */
  datatype ChatMessage = ChatMessage(role: string, content: string)

  /** How an optional field appeared in the JSON body the caller posted. */
  datatype Field<+T> = Omitted | Null | Given(value: T)

  /** The body of `POST /v1/chat/completions` before defaults are applied.
      A temperature is a float in the source; here it is an opaque `real`. */
  datatype ChatCompletionBody = ChatCompletionBody(
    model: string,
    messages: seq<ChatMessage>,
    temperature: Field<real>,
    maxTokens: Field<int>,
    stream: Field<bool>)

  /** The validated request the handler receives. */
  datatype ChatCompletionRequest = ChatCompletionRequest(
    model: string,
    messages: seq<ChatMessage>,
    temperature: Option<real>,
    maxTokens: Option<int>,
    stream: Option<bool>)

  /** The declared default of `temperature`. */
  const DefaultTemperature: real := 0.7

  /** Pydantic's defaults for an optional field: an omitted field takes the declared
      default, an explicit `null` is `None` whatever the default. */
  function WithDefault<T>(f: Field<T>, default: Option<T>): (r: Option<T>)
    ensures f.Omitted? ==> r == default
    ensures f.Null? ==> r == None
    ensures f.Given? ==> r == Some(f.value)
  {
    match f
    case Omitted => default
    case Null => None
    case Given(v) => Some(v)
  }

  /** The request a body validates to. */
  function Validate(body: ChatCompletionBody): (req: ChatCompletionRequest)
    ensures req.model == body.model && req.messages == body.messages
    ensures body.temperature.Omitted? ==> req.temperature == Some(DefaultTemperature)
    ensures body.temperature.Null? ==> req.temperature == None
    ensures body.temperature.Given? ==> req.temperature == Some(body.temperature.value)
    ensures body.maxTokens.Given? <==> req.maxTokens.Some?
    ensures body.maxTokens.Given? ==> req.maxTokens == Some(body.maxTokens.value)
    ensures body.stream.Omitted? ==> req.stream == Some(false)
    ensures body.stream.Null? ==> req.stream == None
    ensures body.stream.Given? ==> req.stream == Some(body.stream.value)
  {
    ChatCompletionRequest(
      body.model,
      body.messages,
      WithDefault(body.temperature, Some(DefaultTemperature)),
      WithDefault(body.maxTokens, None),
      WithDefault(body.stream, Some(false)))
  }

  /** One element of the backend's `messages` list. */
  datatype OllamaMessage = OllamaMessage(role: string, content: string)

  /** A value in the backend's `options` dict. */
  datatype OptionValue = Float(r: real) | Int(n: int)

  /** The body posted to the backend's chat endpoint. */
  datatype OllamaChatRequest = OllamaChatRequest(
    model: string,
    messages: seq<OllamaMessage>,
    stream: bool,
    options: map<string, OptionValue>)

  const TemperatureKey := "temperature"
  const NumPredictKey := "num_predict"

  /** The assistant message inside a choice. Its content is whatever the backend
      put under `message.content`. */
  datatype AssistantMessage = AssistantMessage(role: string, content: Json)

  datatype Choice = Choice(index: int, message: AssistantMessage, finishReason: string)

  /** The `usage` dict; its values are the backend's counters as decoded. */
  datatype Usage = Usage(promptTokens: Json, completionTokens: Json, totalTokens: Json)

  /** The reply of `POST /v1/chat/completions`. */
  datatype ChatCompletion = ChatCompletion(
    id: string,
    objectTag: string,
    created: int,
    model: string,
    choices: seq<Choice>,
    usage: Usage)

  /** One element of the reply of `GET /v1/models`. */
  datatype ModelInfo = ModelInfo(id: string, objectTag: string, created: int, ownedBy: string)

  /** The reply of `GET /v1/models`. */
  datatype ModelList = ModelList(objectTag: string, data: seq<ModelInfo>)

  /** The reply of `GET /health`; `ollama` and `error` are keys that may be absent. */
  datatype Health = Health(status: string, ollama: Option<string>, error: Option<string>)
}

=== FILE: translate.dfy ===
/** The schema translation of `app/main.py`: the backend payload built from a chat
    request, the public chat completion built from the backend's reply, and the public
    model list built from the backend's tag list. */
module Translate {
  import opened Wrappers
  import opened Faults
  import opened Json
  import opened Schema
  import Decimal

  // ---------------------------------------------------------------------------
  // Request: public -> backend
  // ---------------------------------------------------------------------------

  /** The backend's `messages` list: one dict per message, in order, role and
      content copied as they are. */
  function ToOllamaMessages(msgs: seq<ChatMessage>): (out: seq<OllamaMessage>)
    ensures |out| == |msgs|
    ensures forall i :: 0 <= i < |msgs| ==> out[i].role == msgs[i].role && out[i].content == msgs[i].content
  {
    if msgs == [] then []
    else [OllamaMessage(msgs[0].role, msgs[0].content)] + ToOllamaMessages(msgs[1..])
  }

  /** Reading a backend `messages` list back as public messages. */
  function FromOllamaMessages(out: seq<OllamaMessage>): (msgs: seq<ChatMessage>)
    ensures |msgs| == |out|
  {
    if out == [] then []
    else [ChatMessage(out[0].role, out[0].content)] + FromOllamaMessages(out[1..])
  }

  /** No message is lost, reordered or altered on the way to the backend. */
  lemma {:induction false} MessagesRoundTrip(msgs: seq<ChatMessage>)
    ensures FromOllamaMessages(ToOllamaMessages(msgs)) == msgs
  {
    if msgs != [] {
      MessagesRoundTrip(msgs[1..]);
      assert ToOllamaMessages(msgs)[1..] == ToOllamaMessages(msgs[1..]);
    }
  }

  /** Every backend message list is the image of exactly one public list. */
  lemma {:induction false} OllamaMessagesRoundTrip(out: seq<OllamaMessage>)
    ensures ToOllamaMessages(FromOllamaMessages(out)) == out
  {
    if out != [] {
      OllamaMessagesRoundTrip(out[1..]);
      assert FromOllamaMessages(out)[1..] == FromOllamaMessages(out[1..]);
    }
  }

  /** The `options` dict: `temperature` and `num_predict` are set only for the
      fields the request carries. */
  function OptionsFor(temperature: Option<real>, maxTokens: Option<int>): (opts: map<string, OptionValue>)
    ensures TemperatureKey in opts <==> temperature.Some?
    ensures temperature.Some? ==> opts[TemperatureKey] == Float(temperature.value)
    ensures NumPredictKey in opts <==> maxTokens.Some?
    ensures maxTokens.Some? ==> opts[NumPredictKey] == Int(maxTokens.value)
    ensures opts.Keys <= {TemperatureKey, NumPredictKey}
  {
    var withTemperature := if temperature.Some? then map[TemperatureKey := Float(temperature.value)] else map[];
    if maxTokens.Some? then withTemperature[NumPredictKey := Int(maxTokens.value)] else withTemperature
  }

  /** The payload posted to the backend for a chat request. */
  function ToOllamaRequest(req: ChatCompletionRequest): (p: OllamaChatRequest)
    ensures p.model == req.model
    ensures |p.messages| == |req.messages|
    ensures forall i :: 0 <= i < |req.messages| ==>
              p.messages[i].role == req.messages[i].role && p.messages[i].content == req.messages[i].content
    ensures !p.stream
    ensures TemperatureKey in p.options <==> req.temperature.Some?
    ensures req.temperature.Some? ==> p.options[TemperatureKey] == Float(req.temperature.value)
    ensures NumPredictKey in p.options <==> req.maxTokens.Some?
    ensures req.maxTokens.Some? ==> p.options[NumPredictKey] == Int(req.maxTokens.value)
    ensures p.options.Keys <= {TemperatureKey, NumPredictKey}
  {
    OllamaChatRequest(req.model, ToOllamaMessages(req.messages), false, OptionsFor(req.temperature, req.maxTokens))
  }

  /** Reading a payload back as the request it came from; the stream flag is not
      in the payload, so the caller supplies it. */
  function RequestOf(p: OllamaChatRequest, stream: Option<bool>): ChatCompletionRequest {
    ChatCompletionRequest(
      p.model,
      FromOllamaMessages(p.messages),
      if TemperatureKey in p.options && p.options[TemperatureKey].Float? then Some(p.options[TemperatureKey].r) else None,
      if NumPredictKey in p.options && p.options[NumPredictKey].Int? then Some(p.options[NumPredictKey].n) else None,
      stream)
  }

  /** The payload keeps everything of the request except its stream flag. */
  lemma PayloadRoundTrip(req: ChatCompletionRequest)
    ensures RequestOf(ToOllamaRequest(req), req.stream) == req
  {
    MessagesRoundTrip(req.messages);
  }

  /** Two requests that differ in more than the stream flag yield different payloads. */
  lemma PayloadInjective(a: ChatCompletionRequest, b: ChatCompletionRequest)
    requires ToOllamaRequest(a) == ToOllamaRequest(b)
    ensures a.(stream := b.stream) == b
  {
    PayloadRoundTrip(a);
    PayloadRoundTrip(b);
  }

  /** The caller's stream flag never reaches the backend. */
  lemma StreamIgnored(req: ChatCompletionRequest, stream: Option<bool>)
    ensures ToOllamaRequest(req.(stream := stream)) == ToOllamaRequest(req)
    ensures !ToOllamaRequest(req).stream
  {
  }

  /** A body that omits `temperature` still sends `temperature: 0.7` to the backend. */
  lemma OmittedTemperatureIsForwarded(body: ChatCompletionBody)
    requires body.temperature.Omitted?
    ensures ToOllamaRequest(Validate(body)).options[TemperatureKey] == Float(0.7)
  {
  }

  /** Only an explicit `null` keeps `temperature` out of the options; an omitted or
      null `max_tokens` keeps `num_predict` out. */
  lemma OptionKeysFromBody(body: ChatCompletionBody)
    ensures TemperatureKey !in ToOllamaRequest(Validate(body)).options <==> body.temperature.Null?
    ensures NumPredictKey !in ToOllamaRequest(Validate(body)).options <==> !body.maxTokens.Given?
  {
  }

  // ---------------------------------------------------------------------------
  // Response: backend -> public
  // ---------------------------------------------------------------------------

  /** Python's `hash()` of a string on a 64-bit build: a signed 64-bit value that is
      never -1. The hash function itself is a parameter of the handlers. */
  type PyHash = h: int | -0x8000_0000_0000_0000 <= h < 0x8000_0000_0000_0000 && h != -1

  const IdPrefix := "chatcmpl-"
  const IdLength := 29

  /** Python's slice `s[:n]`. */
  function Head(s: string, n: nat): (t: string)
    ensures |t| <= n && |t| <= |s| && t == s[..|t|]
    ensures |s| <= n ==> t == s
  {
    if |s| <= n then s else s[..n]
  }

  /** `f"chatcmpl-{h}"[:29]`. */
  function ChatId(h: PyHash): (id: string)
    ensures |id| <= IdLength
    ensures |id| > |IdPrefix| && id[..|IdPrefix|] == IdPrefix
    ensures id[|IdPrefix|..] == Decimal.ShowInt(h)
  {
    Decimal.ShowInt64Length(h);
    Head(IdPrefix + Decimal.ShowInt(h), IdLength)
  }

  /** The slice `[:29]` never cuts a digit: the hash can be read back from the id. */
  lemma ChatIdRecoversHash(h: PyHash)
    ensures Decimal.ParseInt(ChatId(h)[|IdPrefix|..]) == Some(h as int)
  {
    Decimal.ParseShowInt(h);
  }

  /** Distinct hashes give distinct ids. */
  lemma ChatIdInjective(a: PyHash, b: PyHash)
    requires ChatId(a) == ChatId(b)
    ensures a == b
  {
    Decimal.ShowIntInjective(a, b);
  }

  /** The replies the response translation accepts, stated field by field: a dict whose
      `created_at` (default 0) converts with `int()`, whose `message` is a dict holding
      `content`, and whose two counters (default 0) can be added. */
  predicate Translatable(v: Json) {
    && v.JObj?
    && IntConvertible(FieldOr(v, "created_at", JInt(0)))
    && "message" in v.fields
    && v.fields["message"].JObj?
    && "content" in v.fields["message"].fields
    && Addable(FieldOr(v, "prompt_eval_count", JInt(0)), FieldOr(v, "eval_count", JInt(0)))
  }

  /** The chat completion built from the backend's decoded reply `v`, for the requested
      model, with `h` standing for `hash(str(v))`. The fields are evaluated in the
      order the dict literal lists them, so the first failing one names the fault. */
  function FromOllamaReply(v: Json, model: string, h: PyHash): (r: Result<ChatCompletion, Fault>)
    ensures r.Success? <==> Translatable(v)
    ensures r.Success? ==>
              && r.value.id == ChatId(h)
              && r.value.objectTag == "chat.completion"
              && ToInt(FieldOr(v, "created_at", JInt(0))) == Success(r.value.created)
              && ("created_at" !in v.fields ==> r.value.created == 0)
              && r.value.model == model
              && |r.value.choices| == 1
              && r.value.choices[0] == Choice(0, AssistantMessage("assistant", v.fields["message"].fields["content"]), "stop")
              && r.value.usage.promptTokens == FieldOr(v, "prompt_eval_count", JInt(0))
              && r.value.usage.completionTokens == FieldOr(v, "eval_count", JInt(0))
              && Add(r.value.usage.promptTokens, r.value.usage.completionTokens) == Success(r.value.usage.totalTokens)
    ensures !v.JObj? ==> r == Failure(NoAttribute(TypeName(v), "get"))
    ensures v.JObj? && IntConvertible(FieldOr(v, "created_at", JInt(0))) && "message" !in v.fields ==>
              r == Failure(MissingKey("message"))
    ensures v.JObj? && IntConvertible(FieldOr(v, "created_at", JInt(0))) && "message" in v.fields
            && v.fields["message"].JObj? && "content" !in v.fields["message"].fields ==>
              r == Failure(MissingKey("content"))
  {
    var createdAt :- Get(v, "created_at", JInt(0));
    var created :- ToInt(createdAt);
    var message :- Subscript(v, "message");
    var content :- Subscript(message, "content");
    // `v` is a dict from here on, so neither `.get` below can raise.
    var prompt := FieldOr(v, "prompt_eval_count", JInt(0));
    var completion := FieldOr(v, "eval_count", JInt(0));
    var total :- Add(prompt, completion);
    Success(ChatCompletion(
      ChatId(h),
      "chat.completion",
      created,
      model,
      [Choice(0, AssistantMessage("assistant", content), "stop")],
      Usage(prompt, completion, total)))
  }

  /** With integer counters (or none), the total is their sum, each missing counter
      counting 0; an upstream `total` never enters the result. */
  lemma UsageIsSum(v: Json, model: string, h: PyHash)
    requires Translatable(v)
    requires IsIntLike(FieldOr(v, "prompt_eval_count", JInt(0))) && IsIntLike(FieldOr(v, "eval_count", JInt(0)))
    ensures var u := FromOllamaReply(v, model, h).value.usage;
            && u.totalTokens == JInt(IntValue(u.promptTokens) + IntValue(u.completionTokens))
            && ("prompt_eval_count" !in v.fields ==> u.promptTokens == JInt(0))
            && ("eval_count" !in v.fields ==> u.completionTokens == JInt(0))
  {
  }

  /** Whatever else the backend reports, including a model name of its own, the
      completion names the model the caller asked for. */
  lemma ModelIsEchoed(v: Json, w: Json, model: string, h: PyHash, k: PyHash)
    requires Translatable(v) && Translatable(w)
    ensures FromOllamaReply(v, model, h).value.model == FromOllamaReply(w, model, k).value.model == model
  {
  }

  // ---------------------------------------------------------------------------
  // Model list: backend -> public
  // ---------------------------------------------------------------------------

  const OwnedBy := "ollama"

  /** An entry of the backend's tag list that becomes a `ModelInfo`: a dict whose
      `name` is a string (pydantic refuses any other type for `id`). */
  predicate NamedEntry(e: Json) {
    e.JObj? && "name" in e.fields && e.fields["name"].JStr?
  }

  /** `ModelInfo(id=model["name"], created=0)` for one entry. */
  function ToModelInfo(e: Json): (r: Result<ModelInfo, Fault>)
    ensures r.Success? <==> NamedEntry(e)
    ensures r.Success? ==> r.value == ModelInfo(e.fields["name"].s, "model", 0, OwnedBy)
  {
    var name :- Subscript(e, "name");
    if name.JStr? then Success(ModelInfo(name.s, "model", 0, OwnedBy)) else Failure(Invalid("id"))
  }

  /** The loop over the tag entries: one `ModelInfo` per entry, in order; the first
      entry that cannot be converted stops the loop with its fault. */
  function ToModelInfos(entries: seq<Json>): (r: Result<seq<ModelInfo>, Fault>)
    ensures r.Success? <==> forall i :: 0 <= i < |entries| ==> NamedEntry(entries[i])
    ensures r.Success? ==> |r.value| == |entries|
    ensures r.Success? ==> forall i :: 0 <= i < |entries| ==>
              r.value[i] == ModelInfo(entries[i].fields["name"].s, "model", 0, OwnedBy)
    ensures r.Failure? ==>
              (exists i :: && 0 <= i < |entries| && !NamedEntry(entries[i])
                           && (forall j :: 0 <= j < i ==> NamedEntry(entries[j]))
                           && ToModelInfo(entries[i]) == Failure(r.error))
  {
    if entries == [] then Success([])
    else
      var head :- ToModelInfo(entries[0]);
      var tail :- ToModelInfos(entries[1..]);
      Success([head] + tail)
  }

  /** The loop of `list_models` over `reply.get("models", [])`. Iterating a dict or a
      string visits keys or characters, which are strings, so a non-empty one fails at
      the first `["name"]`; an empty one gives an empty list. */
  function ModelsOf(reply: Json): (r: Result<seq<ModelInfo>, Fault>)
    ensures reply.JObj? && "models" !in reply.fields ==> r == Success([])
    ensures reply.JObj? && "models" in reply.fields && reply.fields["models"].JArr? ==>
              r == ToModelInfos(reply.fields["models"].items)
    ensures reply.JObj? && "models" in reply.fields && !reply.fields["models"].JArr? ==>
              (r.Success? <==> reply.fields["models"] in {JObj(map[]), JStr("")}) && (r.Success? ==> r.value == [])
    ensures !reply.JObj? ==> r == Failure(NoAttribute(TypeName(reply), "get"))
  {
    var models :- Get(reply, "models", JArr([]));
    match models
    case JArr(items) => ToModelInfos(items)
    case JObj(m) => if m == map[] then Success([]) else Failure(NotSubscriptable("str"))
    case JStr(s) => if s == "" then Success([]) else Failure(NotSubscriptable("str"))
    case _ => Failure(NotIterable(TypeName(models)))
  }
}

=== FILE: wrappers.dfy ===
/** Failure-compatible containers shared by the rest of the model. */
module Wrappers {

  /** A value that may be missing: Python's `Optional[T]` once `None` has been decided. */
  datatype Option<+T> = None | Some(value: T)

  /** The value of a computation that may raise: `Success` carries the value,
      `Failure` the exception that escaped. */
  datatype Result<+T, +E> = Success(value: T) | Failure(error: E) {

    predicate IsFailure() {
      Failure?
    }

    /** The same failure, seen as the result of the enclosing computation. */
    function PropagateFailure<U>(): Result<U, E>
      requires Failure?
    {
      Failure(error)
    }

    function Extract(): T
      requires Success?
    {
      value
    }
  }
}
